=== FILE: README.md ===
# usa-status `/down` endpoint, modelled in Dafny

The usa-status site reports whether the U.S. federal government is shut down.
Its `/down` endpoint reads a table of funding lapses and answers `503 Service
Unavailable` while a lapse is ongoing and `200 OK` otherwise. The table is a
comma-separated text with a header line. The answer has an empty (`null`) body
and headers that forbid every cache layer from storing it. The site also keeps
seven lapses as a JavaScript object literal (`shutdowns.js`).

This project models that core:

- `js_string.dfy` (module `JsString`): the two JavaScript string operations
  `parseCSV` calls, `trim` (ECMAScript WhiteSpace and LineTerminator code
  points) and `split` on one character. It also has `join`, used only to build
  inputs for the round-trip lemmas, and the relational `<` on strings, used
  only to state how the data is ordered.
- `csv.dfy` (module `Csv`): `parseCSV`. A property value is
  `Undefined | Str(text)`, and an object is a map from property names to
  values. It also has a writer, `Encode`, so that the round trip
  `ParseCsv(Encode(headers, rows))` can be stated and proved.
- `status.dfy` (module `Status`): `hasOngoingShutdown` and `GET`. `GET` takes
  the data text as a parameter, and its answer is modelled as status, body and
  headers.
- `shutdowns.dfy` (module `ShutdownData`): the seven-entry literal. It is
  modelled as a datatype with one constant per entry, together with the
  invariants the data keeps. Entries can also be written out as
  comma-separated text, and parsing that text gives back the objects the
  literal denotes.

### How the code reads its data

- **Quoted empty end field.** The parser has no quote handling. A data row
  whose end field is written as `""` keeps the two-character string `""` as
  its end. That string is truthy, so the record counts as ended
  (`Status.QuotedEmptyEndIsNotOngoing`); a table whose only data row is
  `"1990-10",""` answers 200 (`Status.QuotedEmptyEndExample`).
- **What counts as no end.** The test is JavaScript falsiness. A record is
  ongoing when its end property is missing, `undefined` (a row cut short
  before the end column, `Status.TruncatedRowIsOngoing`), or the empty string
  (`Status.IsOngoing`).
- **Sources.** The literal stores `sources` as one string with the links
  separated by `;`, not as a list, and the model keeps it that way.

## Model

| member | source | states |
|---|---|---|
| JsString.Trim | usa-status/src/routes/down/+server.js:7 | `text.trim()` is the infix left after removing a whitespace prefix and a whitespace suffix, and it neither starts nor ends with whitespace |
| JsString.TrimKeepsTrimmed | usa-status/src/routes/down/+server.js:7 | text that does not start or end with whitespace is left unchanged by `trim` |
| JsString.TrimAllWhiteSpace | usa-status/src/routes/down/+server.js:7 | text made only of whitespace trims to the empty string |
| JsString.Split | usa-status/src/routes/down/+server.js:7-10 | `split` with a one-character separator gives one more piece than the text has separators; no piece contains the separator; joining the pieces with the separator gives back the text |
| JsString.SplitJoin | usa-status/src/routes/down/+server.js:7-10 | splitting undoes joining, for any non-empty list of parts that are free of the separator |
| Csv.Falsy | usa-status/src/routes/down/+server.js:21 | `!v` holds for a property value exactly when it is not a non-empty string, that is, `undefined` or `""` |
| Csv.Lookup | usa-status/src/routes/down/+server.js:21 | reading a property the object has gives that property's value, and reading one it does not have gives `undefined` |
| Csv.ValueAt | usa-status/src/routes/down/+server.js:13 | `values[i]` is a string exactly when `i` is inside the row, and then it is field `i`; past the end it is `undefined` |
| Csv.Assign | usa-status/src/routes/down/+server.js:11-14 | after the `forEach` has run over the first `n` headers, the object's properties are exactly those `n` header names |
| Csv.AssignValue | usa-status/src/routes/down/+server.js:11-14 | a header name that is not repeated later holds the field at its own position, or `undefined` past the end of the row |
| Csv.ParseRow | usa-status/src/routes/down/+server.js:10-15 | the object for a line has exactly the header names as properties, and each name holds the field at its last position |
| Csv.Rows | usa-status/src/routes/down/+server.js:9-16 | `lines.slice(1).map(...)` builds one object per data line, in line order |
| Csv.LinesOf | usa-status/src/routes/down/+server.js:7 | `text.trim().split('\n')` gives one more line than the trimmed text has line breaks; no line holds a line break, and joining the lines with `'\n'` gives back the trimmed text |
| Csv.HeaderNames | usa-status/src/routes/down/+server.js:8 | the names are the first line cut at `,`: one more than that line has commas, and joined with `,` they give back the line |
| Csv.ParseCsv | usa-status/src/routes/down/+server.js:6-17 | the parse yields one record per line after the header line, that is, as many records as the trimmed text has line breaks |
| Csv.ParseCsvAt | usa-status/src/routes/down/+server.js:8-15 | record `k` is the object built from line `k + 1` with the names taken from line 0 |
| Csv.RecordKeys | usa-status/src/routes/down/+server.js:8-15 | every record's properties are exactly the names in the header line |
| Csv.RecordField | usa-status/src/routes/down/+server.js:8-15 | record `k` binds the name at position `i` to field `i` of its line, or to `undefined` when the line is shorter, unless a later header repeats the name |
| Csv.ParseBlank | usa-status/src/routes/down/+server.js:6-9 | empty or whitespace-only text parses to no records and does not fail |
| Csv.AssignPastEnd | usa-status/src/routes/down/+server.js:12-14 | a header at a position past the end of the row reads as `undefined`, even when its name repeats, because every later occurrence is past the end too |
| Csv.ShortRowUndefined | usa-status/src/routes/down/+server.js:10-13 | in a line with `k` commas, every header past position `k` reads as `undefined`, whether or not header names repeat |
| Csv.ParseRowVerbatim | usa-status/src/routes/down/+server.js:10-13 | fields are kept verbatim, quotes included: when no later header repeats `headers[i]` and no field holds `,`, the value for `headers[i]` is exactly `fields[i]` of the joined line, whatever other names repeat |
| Csv.SameRecord | usa-status/src/routes/down/+server.js:11-15 | two objects with the same property names and the same value under each name are the same object |
| Csv.ParseEncode | usa-status/src/routes/down/+server.js:6-17 | round trip: the written-out table parses back to one record per row, with every header bound to that row's field, provided names are distinct, rows are full, no cell holds ',' or a line break, and the text is already trimmed |
| Status.IsOngoing | usa-status/src/routes/down/+server.js:21 | `!s.end_datetime_et` holds exactly when the record has no end property, or its end is `undefined` or `""` |
| Status.HasOngoingShutdown | usa-status/src/routes/down/+server.js:20-22 | the scan is true exactly when some record's end is missing, `undefined` or empty |
| Status.NoneOngoingInEmpty | usa-status/src/routes/down/+server.js:20-22 | an empty list has no ongoing shutdown |
| Status.AllEndedMeansNotOngoing | usa-status/src/routes/down/+server.js:20-22 | when every record has a non-empty end, nothing is ongoing |
| Status.OneOpenSuffices | usa-status/src/routes/down/+server.js:20-22 | one record without an end makes the list ongoing, whatever the other records hold |
| Status.HasOngoingAppend | usa-status/src/routes/down/+server.js:20-22 | the scan over a concatenation is the disjunction of the scans over its parts |
| Status.AppendMonotone | usa-status/src/routes/down/+server.js:20-22 | adding records never turns "ongoing" into "not ongoing" |
| Status.OrderIrrelevant | usa-status/src/routes/down/+server.js:20-22 | two lists holding the same records, in any order, give the same answer |
| Status.TruncatedRowIsOngoing | usa-status/src/routes/down/+server.js:10-21 | a data line that stops before the end column leaves the end `undefined`, and the record counts as ongoing, whether or not header names repeat |
| Status.QuotedEmptyEndIsNotOngoing | usa-status/src/routes/down/+server.js:10-21 | an end field written as `""` stays a two-character, truthy string, and the record counts as ended, when no later header is also the end column, whatever other names repeat |
| Status.SingleAnswer | usa-status/src/routes/down/+server.js:21-29 | a single record whose end is `end` answers 503 exactly when `end` is empty |
| Status.SingleRowAnswer | usa-status/src/routes/down/+server.js:24-29 | a table with a key column, the end column and one data row answers 503 exactly when the end field is empty |
| Status.QuotedEmptyEndExample | usa-status/src/routes/down/+server.js:24-29 | the data line `"1990-10",""` answers 200, because the quoted empty end counts as an end |
| Status.Respond | usa-status/src/routes/down/+server.js:28-38 | status 503 exactly when down and 200 exactly when not; the body is `null`; the headers are exactly `Content-Type`, which is `text/plain`, and `Cache-Control`, `Pragma`, `Expires`, `Surrogate-Control` and `CDN-Cache-Control`, which all forbid caching |
| Status.Get | usa-status/src/routes/down/+server.js:24-39 | `GET` answers 503 exactly when some parsed record is ongoing and 200 exactly when none is, with a `null` body and the same six plain-text, uncacheable headers |
| ShutdownData.ToRecord | usa-status/src/lib/data/shutdowns.js:2-12 | an entry read as a plain object carries its end under `end_datetime_et`, and it is ongoing exactly when that end is empty |
| ShutdownData.Records | usa-status/src/lib/data/shutdowns.js:1-79 | the list read as objects keeps its length, and entry `k` is ongoing exactly when its end is empty |
| ShutdownData.ToRecordColumns | usa-status/src/lib/data/shutdowns.js:2-12 | an entry's object has exactly the nine property names of the literal, each bound to the entry's value for it |
| ShutdownData.FieldNamesNameTheCells | usa-status/src/lib/data/shutdowns.js:2-12 | the nine property names are distinct, hold no `,` or line break, have the end fourth, and name the object's properties in the order of an entry's values |
| ShutdownData.TableTextTrimmed | usa-status/src/routes/down/+server.js:7 | entries written out as comma-separated text under the property names are left alone by `trim`, when no cell holds `,` or a line break, and the last entry's duration does not end in whitespace that `trim` would cut |
| ShutdownData.ParsedEntry | usa-status/src/routes/down/+server.js:6-17 | record `k` parsed from the written-out entries is the object of entry `k` |
| ShutdownData.ParseTable | usa-status/src/routes/down/+server.js:6-17 | entries written out under the property names and parsed back give exactly the objects the literal denotes, when no cell holds `,` or a line break, and the last entry's duration does not end in whitespace that `trim` would cut: the parser and the object literal agree |
| ShutdownData.TableAnswer | usa-status/src/routes/down/+server.js:24-39 | for entries written out under the property names, when no cell holds `,` or a line break, and the last entry's duration does not end in whitespace that `trim` would cut, `GET` answers 503 exactly when some entry has an empty end and 200 exactly when none has |
| ShutdownData.ColumnsPairwise | usa-status/src/lib/data/shutdowns.js:1-79 | for any list, ascending id and start columns order every pair of entries, so no id repeats |
| ShutdownData.SpansFromColumns | usa-status/src/lib/data/shutdowns.js:1-79 | for any list whose end column follows its start column, every recorded end sorts after its own start |
| ShutdownData.FixtureOrder | usa-status/src/lib/data/shutdowns.js:1-79 | the literal has seven entries, strictly ascending by id and by start timestamp compared as strings, so the ids are distinct |
| ShutdownData.FixtureSpans | usa-status/src/lib/data/shutdowns.js:1-79 | every entry has a start, and every recorded end sorts after its start |
| ShutdownData.FixtureOneOngoing | usa-status/src/lib/data/shutdowns.js:68-78 | exactly one entry, `2025-10`, has an empty end, and an entry's duration is blank exactly when its end is |
| ShutdownData.FixtureUnknownEstimates | usa-status/src/lib/data/shutdowns.js:1-79 | unknown workforce estimates are stored as `""`, never as `"0"`; entries `1990-10`, `1995-11`, `1995-12` and `2018-01` have none |
| ShutdownData.FixtureIsDown | usa-status/src/lib/data/shutdowns.js:68-78 | the evaluator finds the literal ongoing, so the answer for it is 503 |
| ShutdownData.AmendedFixtureIsUp | usa-status/src/lib/data/shutdowns.js:68-78 | once `2025-10` is given any non-empty end, nothing is ongoing and the answer is 200 |

## Left out

- The `?raw` import of `shutdowns_full.csv` (`+server.js` line 1) and the contents of that file: the file is not part of this model. `Status.Get` takes the data text as a parameter.
- The CSV file's own text is not available, so the literal stands in for it. `ShutdownData.TableAnswer` proves that any list of entries written out under the property names answers 503 exactly when some entry has an empty end, provided no cell holds `,` or a line break and the last entry's duration does not end in whitespace. Both conditions hold for the literal (its last duration is empty), but the first is not proved for the literal itself. Showing that a string literal lacks a character costs the verifier more the longer the literal is, and the 17 names, summaries and sources of 42 to 164 characters are beyond its resource limit. The literal is therefore evaluated through `ShutdownData.ToRecord` (`ShutdownData.FixtureIsDown`), and `ShutdownData.ParseTable` shows that this is the same list of objects the parser would produce from the written-out text.
- `export const prerender = true` (`+server.js` line 3): a build-time setting, with no effect on the answer's logic.
- `static/_worker.js` and `svelte.config.js`: deployment glue that relays the response. It is outside the evaluator.
- The `Response` object beyond its status, body and headers (streams, `statusText`, the header object's case-insensitivity): these are platform behaviour.
- JavaScript strings are UTF-16 code units; the model uses Unicode scalar values. The two differ only for characters outside the Basic Multilingual Plane. There, `<` compares surrogate halves rather than code points, and `split` and `trim` are unaffected.
- Plain-object prototype behaviour: a header named `__proto__` goes to the setter every plain object inherits, which ignores strings and `undefined`, so no own property is added and the prototype stays as it is; the model adds a `__proto__` property instead. A record may also inherit a property such as `constructor`. The model treats an object as a plain map of its own properties.
- Timestamps are compared as strings, as written. They are not parsed as dates, and their UTC offsets are not applied.
- `shutdowns.some` stops at the first match. The model is a pure scan with the same result, and evaluation order is not observable here.

=== FILE: csv.dfy ===
/**
 The naive tabular parser of the `/down` endpoint (`parseCSV`): trim the
 text, cut it into lines at '\n', read the first line as the field names
 and pair every later line's ','-separated fields with those names by
 position. There is no quote handling and no escaping.
 */
module Csv {
  import opened JsString

  /** A property value as the parser can produce it: `undefined`, or a string. */
  datatype Value = Undefined | Str(text: string)

  /** JavaScript truthiness: `undefined` and the empty string are falsy, every other string is truthy. */
  function Falsy(v: Value): (b: bool)
    ensures b <==> !(v.Str? && |v.text| > 0)
  {
    v == Undefined || v == Str("")
  }

  /** A plain object built by the parser: its own properties and their values. */
  type Record = map<string, Value>

  /** Property read `obj[key]`: a property the object does not have reads as `undefined`. */
  function Lookup(obj: Record, key: string): (v: Value)
    ensures key in obj ==> v == obj[key]
    ensures key !in obj ==> v == Undefined
    ensures v != Undefined ==> key in obj && obj[key] == v
  {
    if key in obj then obj[key] else Undefined
  }

  /** Array read `values[i]`: an index past the end reads as `undefined`. */
  function ValueAt(values: seq<string>, i: nat): (v: Value)
    ensures v.Str? <==> i < |values|
    ensures v.Str? ==> v.text == values[i]
  {
    if i < |values| then Str(values[i]) else Undefined
  }

  /** No later header (before position `n`) repeats `headers[i]`, so the assignment at `i` is the one that sticks. */
  predicate NotReassigned(headers: seq<string>, i: nat, n: nat)
    requires i < n <= |headers|
  {
    forall j :: i < j < n ==> headers[j] != headers[i]
  }

  predicate Distinct(names: seq<string>) {
    forall i, j :: 0 <= i < j < |names| ==> names[i] != names[j]
  }

  /**
   The object after the first `n` rounds of `headers.forEach((h, i) => obj[h] = values[i])`
   starting from `{}`. A repeated header is overwritten by its last occurrence.
   */
  function Assign(headers: seq<string>, values: seq<string>, n: nat): (obj: Record)
    requires n <= |headers|
    ensures forall h :: h in obj <==> h in headers[..n]
  {
    if n == 0 then map[]
    else
      assert headers[..n] == headers[..n - 1] + [headers[n - 1]];
      Assign(headers, values, n - 1)[headers[n - 1] := ValueAt(values, n - 1)]
  }

  /** The value at a header name is the field at that name's last position. */
  lemma {:induction false} AssignValue(headers: seq<string>, values: seq<string>, n: nat, i: nat)
    requires i < n <= |headers| && NotReassigned(headers, i, n)
    ensures headers[i] in Assign(headers, values, n)
    ensures Assign(headers, values, n)[headers[i]] == ValueAt(values, i)
  {
    if i < n - 1 {
      assert headers[n - 1] != headers[i];
      AssignValue(headers, values, n - 1, i);
    }
  }

  /** The object for one data line: its fields paired with the header names by position. */
  function ParseRow(headers: seq<string>, line: string): (obj: Record)
    ensures forall h :: h in obj <==> h in headers
    ensures forall i :: 0 <= i < |headers| && NotReassigned(headers, i, |headers|) ==>
              Lookup(obj, headers[i]) == ValueAt(Split(line, ','), i)
  {
    var values := Split(line, ',');
    var obj := Assign(headers, values, |headers|);
    assert headers[..|headers|] == headers;
    assert forall i :: 0 <= i < |headers| && NotReassigned(headers, i, |headers|) ==>
             Lookup(obj, headers[i]) == ValueAt(values, i) by {
      forall i | 0 <= i < |headers| && NotReassigned(headers, i, |headers|)
        ensures Lookup(obj, headers[i]) == ValueAt(values, i)
      {
        AssignValue(headers, values, |headers|, i);
      }
    }
    obj
  }

  /** The lines of the trimmed text; there is always at least one. */
  function Lines(text: string): (lines: seq<string>)
    ensures |lines| >= 1
  {
    Split(Trim(text), '\n')
  }

  /**
   The lines are the pieces of the trimmed text between its line breaks:
   one more than it has line breaks, none holding one, and joined again
   with '\n' they give back the trimmed text.
   */
  lemma LinesOf(text: string)
    ensures |Lines(text)| == multiset(Trim(text))['\n'] + 1
    ensures forall k :: 0 <= k < |Lines(text)| ==> '\n' !in Lines(text)[k]
    ensures Join(Lines(text), '\n') == Trim(text)
  {
  }

  /** The field names: the first line cut at ','; one more than that line has commas. */
  function HeaderNames(text: string): (names: seq<string>)
    ensures |names| == multiset(Lines(text)[0])[','] + 1
    ensures Join(names, ',') == Lines(text)[0]
  {
    Split(Lines(text)[0], ',')
  }

  /**
   `parseCSV(text)`: one record per line after the header line, so as many
   records as the trimmed text has '\n' characters.
   */
  function ParseCsv(text: string): (records: seq<Record>)
    ensures |records| == |Lines(text)| - 1 == multiset(Trim(text))['\n']
  {
    Rows(HeaderNames(text), Lines(text)[1..])
  }

  /** Two objects with the same property names and the same value at each are the same object. */
  lemma SameRecord(a: Record, b: Record, names: seq<string>)
    requires forall h :: h in a <==> h in names
    requires forall h :: h in b <==> h in names
    requires forall i :: 0 <= i < |names| ==> Lookup(a, names[i]) == Lookup(b, names[i])
    ensures a == b
  {
    forall h | h in a ensures a[h] == b[h] {
      var i :| 0 <= i < |names| && names[i] == h;
      assert Lookup(a, names[i]) == Lookup(b, names[i]);
    }
  }

  /** One record per line, in order. */
  function Rows(headers: seq<string>, lines: seq<string>): (records: seq<Record>)
    ensures |records| == |lines|
    ensures forall k :: 0 <= k < |lines| ==> records[k] == ParseRow(headers, lines[k])
  {
    if |lines| == 0 then [] else [ParseRow(headers, lines[0])] + Rows(headers, lines[1..])
  }

  /** Record `k` of a parse is the row object built from line `k + 1` with the header names. */
  lemma ParseCsvAt(text: string, k: nat)
    requires k < |ParseCsv(text)|
    ensures ParseCsv(text)[k] == ParseRow(HeaderNames(text), Lines(text)[k + 1])
  {
    assert Lines(text)[1..][k] == Lines(text)[k + 1];
  }

  /** Every record has exactly the header names as its properties. */
  lemma RecordKeys(text: string, k: nat, h: string)
    requires k < |ParseCsv(text)|
    ensures h in ParseCsv(text)[k] <==> h in HeaderNames(text)
  {
    ParseCsvAt(text, k);
  }

  /**
   Record `k` binds the header name at position `i` to field `i` of line
   `k + 1` (`undefined` past the end of that line), unless a later header
   repeats the name.
   */
  lemma RecordField(text: string, k: nat, i: nat)
    requires k < |ParseCsv(text)| && i < |HeaderNames(text)|
    requires NotReassigned(HeaderNames(text), i, |HeaderNames(text)|)
    ensures Lookup(ParseCsv(text)[k], HeaderNames(text)[i]) == ValueAt(Split(Lines(text)[k + 1], ','), i)
  {
    ParseCsvAt(text, k);
  }

  /** Empty or whitespace-only text parses to no records, without failing. */
  lemma ParseBlank(text: string)
    requires AllWhiteSpace(text)
    ensures ParseCsv(text) == []
  {
    TrimAllWhiteSpace(text);
  }

  /**
   A line with fewer fields than there are headers leaves the trailing
   properties `undefined`: with `k` commas there are `k + 1` fields, so
   every header at a position past `k` reads as `undefined`.
   */
  lemma ShortRowUndefined(headers: seq<string>, line: string, i: nat)
    requires multiset(line)[','] < i < |headers|
    ensures Lookup(ParseRow(headers, line), headers[i]) == Undefined
  {
    AssignPastEnd(headers, Split(line, ','), |headers|, i);
  }

  /**
   A header at a position past the end of the row reads as `undefined`,
   however often its name repeats: every later occurrence is past the end
   too.
   */
  lemma {:induction false} AssignPastEnd(headers: seq<string>, values: seq<string>, n: nat, i: nat)
    requires |values| <= i < n <= |headers|
    ensures Lookup(Assign(headers, values, n), headers[i]) == Undefined
  {
    if n - 1 != i && headers[n - 1] != headers[i] {
      AssignPastEnd(headers, values, n - 1, i);
    }
  }

  /** No field contains the field separator. */
  predicate NoCommas(fields: seq<string>) {
    forall j :: 0 <= j < |fields| ==> ',' !in fields[j]
  }

  /**
   Fields are taken verbatim: when no later header repeats `headers[i]` and
   no field of the line contains ',', the property for `headers[i]` is
   exactly `fields[i]`, quotes and all.
   */
  lemma ParseRowVerbatim(headers: seq<string>, fields: seq<string>, i: nat)
    requires i < |headers| && NotReassigned(headers, i, |headers|)
    requires |fields| >= 1 && NoCommas(fields)
    ensures Lookup(ParseRow(headers, Join(fields, ',')), headers[i]) == ValueAt(fields, i)
  {
    SplitJoin(fields, ',');
  }

  /** A field or header name that neither `split` can cut. */
  predicate Plain(field: string) {
    ',' !in field && '\n' !in field
  }

  /** Every name or field of a line is plain. */
  predicate PlainRow(fields: seq<string>) {
    forall i :: 0 <= i < |fields| ==> Plain(fields[i])
  }

  /** Every field of every row is plain. */
  predicate PlainTable(rows: seq<seq<string>>) {
    forall k :: 0 <= k < |rows| ==> PlainRow(rows[k])
  }

  /** The lines of the table before joining them with '\n'. */
  function EncodedLines(headers: seq<string>, rows: seq<seq<string>>): (lines: seq<string>)
    ensures |lines| == |rows| + 1
  {
    [Join(headers, ',')] + seq(|rows|, k requires 0 <= k < |rows| => Join(rows[k], ','))
  }

  /** The table written out: the header line, then one line per row, fields joined by ','. */
  function Encode(headers: seq<string>, rows: seq<seq<string>>): string {
    Join(EncodedLines(headers, rows), '\n')
  }

  /** No line of a table of plain names and fields holds '\n'. */
  lemma EncodedLinesPlain(headers: seq<string>, rows: seq<seq<string>>)
    requires PlainRow(headers)
    requires PlainTable(rows)
    ensures forall k :: 0 <= k < |EncodedLines(headers, rows)| ==> '\n' !in EncodedLines(headers, rows)[k]
  {
    var lines := EncodedLines(headers, rows);
    forall k | 0 <= k < |lines| ensures '\n' !in lines[k] {
      if k == 0 {
        JoinAvoids(headers, ',', '\n');
      } else {
        assert lines[k] == Join(rows[k - 1], ',');
        JoinAvoids(rows[k - 1], ',', '\n');
      }
    }
  }

  /** Cutting an encoded table at '\n' gives back its lines, when no name or field holds '\n'. */
  lemma LinesOfEncode(headers: seq<string>, rows: seq<seq<string>>)
    requires PlainRow(headers)
    requires PlainTable(rows)
    requires Trimmed(Encode(headers, rows))
    ensures Lines(Encode(headers, rows)) == EncodedLines(headers, rows)
  {
    EncodedLinesPlain(headers, rows);
    SplitJoin(EncodedLines(headers, rows), '\n');
    assert Lines(Encode(headers, rows)) == Split(Encode(headers, rows), '\n') by {
      TrimKeepsTrimmed(Encode(headers, rows));
    }
  }

  /** The lines and header names read back from an encoded table are the ones written. */
  lemma EncodedHeaderNames(headers: seq<string>, rows: seq<seq<string>>)
    requires |headers| >= 1
    requires PlainRow(headers)
    requires PlainTable(rows)
    requires Trimmed(Encode(headers, rows))
    ensures Lines(Encode(headers, rows)) == EncodedLines(headers, rows)
    ensures HeaderNames(Encode(headers, rows)) == headers
  {
    LinesOfEncode(headers, rows);
    SplitJoin(headers, ',');
  }

  /** One cell of the round trip: record `k` binds `headers[i]` to `rows[k][i]`. */
  lemma ParseEncodeAt(headers: seq<string>, rows: seq<seq<string>>, k: nat, i: nat)
    requires |headers| >= 1 && Distinct(headers)
    requires PlainRow(headers)
    requires forall k :: 0 <= k < |rows| ==> |rows[k]| == |headers|
    requires PlainTable(rows)
    requires Trimmed(Encode(headers, rows))
    requires k < |rows| && i < |headers|
    ensures k < |ParseCsv(Encode(headers, rows))|
    ensures Lookup(ParseCsv(Encode(headers, rows))[k], headers[i]) == Str(rows[k][i])
  {
    var text := Encode(headers, rows);
    EncodedHeaderNames(headers, rows);
    ParseCsvAt(text, k);
    assert Lines(text)[k + 1] == Join(rows[k], ',');
    assert NoCommas(rows[k]);
    assert NotReassigned(headers, i, |headers|);
    ParseRowVerbatim(headers, rows[k], i);
  }

  /**
   Round trip: a table whose names are distinct, whose rows all have one
   field per header, in which no name or field holds ',' or '\n', and
   whose text `trim` leaves alone, parses back to one record per row with
   each header bound to that row's field.
   */
  lemma ParseEncode(headers: seq<string>, rows: seq<seq<string>>)
    requires |headers| >= 1 && Distinct(headers)
    requires PlainRow(headers)
    requires forall k :: 0 <= k < |rows| ==> |rows[k]| == |headers|
    requires PlainTable(rows)
    requires Trimmed(Encode(headers, rows))
    ensures |ParseCsv(Encode(headers, rows))| == |rows|
    ensures forall k, i :: 0 <= k < |rows| && 0 <= i < |headers| ==>
              Lookup(ParseCsv(Encode(headers, rows))[k], headers[i]) == Str(rows[k][i])
  {
    EncodedHeaderNames(headers, rows);
    forall k, i | 0 <= k < |rows| && 0 <= i < |headers|
      ensures Lookup(ParseCsv(Encode(headers, rows))[k], headers[i]) == Str(rows[k][i])
    {
      ParseEncodeAt(headers, rows, k, i);
    }
  }
}

=== FILE: js_string.dfy ===
/**
 The two JavaScript string operations the status endpoint calls,
 `String.prototype.trim` and `String.prototype.split` with a one-character
 separator. Also `Array.prototype.join`, used only to build inputs for the
 round-trip lemmas, and the relational `<` on strings, used only to state
 how the shutdown data is ordered.
 */
module JsString {

  /** ECMAScript WhiteSpace and LineTerminator code points: exactly what `trim` strips. */
  predicate IsWhiteSpace(c: char) {
    var n := c as int;
    || n == 0x09 || n == 0x0A || n == 0x0B || n == 0x0C || n == 0x0D
    || n == 0x20 || n == 0xA0 || n == 0x1680
    || (0x2000 <= n <= 0x200A)
    || n == 0x2028 || n == 0x2029 || n == 0x202F || n == 0x205F
    || n == 0x3000 || n == 0xFEFF
  }

  predicate AllWhiteSpace(s: string) {
    forall k :: 0 <= k < |s| ==> IsWhiteSpace(s[k])
  }

  /** `r` is `s` with a whitespace prefix of length `i` and a whitespace suffix removed. */
  predicate TrimmedAt(s: string, r: string, i: nat) {
    && i + |r| <= |s|
    && r == s[i..i + |r|]
    && AllWhiteSpace(s[..i])
    && AllWhiteSpace(s[i + |r|..])
  }

  /** Leading whitespace removed. */
  function TrimStart(s: string): (r: string)
    ensures |r| <= |s| && r == s[|s| - |r|..]
    ensures AllWhiteSpace(s[..|s| - |r|])
    ensures r == [] || !IsWhiteSpace(r[0])
    decreases |s|
  {
    if |s| > 0 && IsWhiteSpace(s[0]) then
      var r := TrimStart(s[1..]);
      assert s[..|s| - |r|] == [s[0]] + s[1..][..|s| - 1 - |r|];
      AllWhiteSpaceConcat([s[0]], s[1..][..|s| - 1 - |r|]);
      r
    else
      s
  }

  /** Trailing whitespace removed. */
  function TrimEnd(s: string): (r: string)
    ensures |r| <= |s| && r == s[..|r|]
    ensures AllWhiteSpace(s[|r|..])
    ensures r == [] || !IsWhiteSpace(r[|r| - 1])
    decreases |s|
  {
    if |s| > 0 && IsWhiteSpace(s[|s| - 1]) then
      var r := TrimEnd(s[..|s| - 1]);
      assert s[|r|..] == s[..|s| - 1][|r|..] + [s[|s| - 1]];
      AllWhiteSpaceConcat(s[..|s| - 1][|r|..], [s[|s| - 1]]);
      r
    else
      s
  }

  lemma AllWhiteSpaceConcat(a: string, b: string)
    requires AllWhiteSpace(a) && AllWhiteSpace(b)
    ensures AllWhiteSpace(a + b)
  {
    forall k | 0 <= k < |a + b| ensures IsWhiteSpace((a + b)[k]) {
      if k < |a| {
        assert (a + b)[k] == a[k];
      } else {
        assert (a + b)[k] == b[k - |a|];
      }
    }
  }

  /** `s.trim()`: the infix of `s` left after stripping whitespace from both ends. */
  function Trim(s: string): (r: string)
    ensures exists i :: TrimmedAt(s, r, i)
    ensures Trimmed(r)
  {
    TrimBothEnds(s);
    TrimEnd(TrimStart(s))
  }

  /** What the two passes of `Trim` leave: an infix of `s` framed by whitespace, itself without whitespace at either end. */
  lemma TrimBothEnds(s: string)
    ensures TrimmedAt(s, TrimEnd(TrimStart(s)), |s| - |TrimStart(s)|)
    ensures Trimmed(TrimEnd(TrimStart(s)))
  {
    var t := TrimStart(s);
    var r := TrimEnd(t);
    TrimmedAtParts(s, t, r);
    assert r == [] || r[0] == t[0];
  }

  /** Stripping a whitespace prefix and then a whitespace suffix leaves an infix framed by whitespace. */
  lemma TrimmedAtParts(s: string, t: string, r: string)
    requires |t| <= |s| && t == s[|s| - |t|..] && AllWhiteSpace(s[..|s| - |t|])
    requires |r| <= |t| && r == t[..|r|] && AllWhiteSpace(t[|r|..])
    ensures TrimmedAt(s, r, |s| - |t|)
  {
    var i := |s| - |t|;
    assert r == s[i..i + |r|];
    assert s[i + |r|..] == t[|r|..];
  }

  /** Neither the first nor the last character is whitespace. */
  predicate Trimmed(s: string) {
    s == [] || (!IsWhiteSpace(s[0]) && !IsWhiteSpace(s[|s| - 1]))
  }

  /** A string that neither starts nor ends with whitespace is left unchanged by `trim`. */
  lemma TrimKeepsTrimmed(s: string)
    requires Trimmed(s)
    ensures Trim(s) == s
  {
    var r := Trim(s);
    var i: nat :| TrimmedAt(s, r, i);
  }

  /** A string made only of whitespace trims to the empty string. */
  lemma TrimAllWhiteSpace(s: string)
    requires AllWhiteSpace(s)
    ensures Trim(s) == []
  {
    var r := Trim(s);
    var i: nat :| TrimmedAt(s, r, i);
  }

  /** Index of the first `c` in `s`, or `|s|` when there is none (`indexOf` with -1 read as `|s|`). */
  function IndexOf(s: string, c: char): (i: nat)
    ensures i <= |s|
    ensures i < |s| ==> s[i] == c
    ensures c !in s[..i]
  {
    if |s| == 0 || s[0] == c then 0 else 1 + IndexOf(s[1..], c)
  }

  /** `parts.join(sep)`: the parts with one separator between neighbours; `[]` joins to `""`. */
  function Join(parts: seq<string>, sep: char): string {
    if |parts| == 0 then ""
    else if |parts| == 1 then parts[0]
    else parts[0] + [sep] + Join(parts[1..], sep)
  }

  /**
   `s.split(sep)` for a one-character separator: the maximal separator-free
   pieces between occurrences of `sep`. No quoting or escaping of any kind.
   */
  function Split(s: string, sep: char): (parts: seq<string>)
    ensures |parts| == multiset(s)[sep] + 1
    ensures forall k :: 0 <= k < |parts| ==> sep !in parts[k]
    ensures Join(parts, sep) == s
    decreases |s|
  {
    var i := IndexOf(s, sep);
    if i == |s| then
      assert s[..i] == s;
      [s]
    else
      var rest := Split(s[i + 1..], sep);
      CutAt(s, i);
      JoinCons(s[..i], rest, sep);
      [s[..i]] + rest
  }

  /** Cutting `s` around position `i`: the pieces put back together, and the count of `s[i]` split between them. */
  lemma CutAt(s: string, i: nat)
    requires i < |s|
    ensures s == s[..i] + [s[i]] + s[i + 1..]
    ensures multiset(s)[s[i]] == multiset(s[..i])[s[i]] + 1 + multiset(s[i + 1..])[s[i]]
  {
    assert s == s[..i] + [s[i]] + s[i + 1..];
    calc {
      multiset(s);
      multiset(s[..i] + [s[i]] + s[i + 1..]);
      multiset(s[..i]) + multiset{s[i]} + multiset(s[i + 1..]);
    }
  }

  /** Joining one more part at the front puts a separator between it and the rest. */
  lemma JoinCons(p: string, rest: seq<string>, sep: char)
    requires |rest| >= 1
    ensures Join([p] + rest, sep) == p + [sep] + Join(rest, sep)
  {
    assert ([p] + rest)[1..] == rest;
  }

  /** A separator that occurs in none of the parts is absent from everything else joined with it. */
  lemma {:induction false} JoinAvoids(parts: seq<string>, sep: char, c: char)
    requires c != sep
    requires forall k :: 0 <= k < |parts| ==> c !in parts[k]
    ensures c !in Join(parts, sep)
  {
    if |parts| > 1 {
      JoinAvoids(parts[1..], sep, c);
    }
  }

  /** Splitting undoes joining, provided no part contains the separator. */
  lemma {:induction false} SplitJoin(parts: seq<string>, sep: char)
    requires |parts| >= 1
    requires forall k :: 0 <= k < |parts| ==> sep !in parts[k]
    ensures Split(Join(parts, sep), sep) == parts
  {
    var s := Join(parts, sep);
    if |parts| == 1 {
      assert sep !in parts[0];
      assert IndexOf(s, sep) == |s|;
    } else {
      var p := parts[0];
      var tail := Join(parts[1..], sep);
      assert s == p + [sep] + tail;
      assert sep !in p;
      assert s[|p|] == sep;
      assert s[..|p|] == p;
      var i := IndexOf(s, sep);
      assert i == |p|;
      assert s[i + 1..] == tail;
      SplitJoin(parts[1..], sep);
      assert [p] + parts[1..] == parts;
    }
  }

  /** The first character of a join is the first character of its first part, when that part is non-empty. */
  lemma JoinFirst(parts: seq<string>, sep: char)
    requires |parts| >= 1 && |parts[0]| >= 1
    ensures |Join(parts, sep)| >= 1 && Join(parts, sep)[0] == parts[0][0]
  {
  }

  /** The last character of a join is the last character of its last part, or `sep` when that part is empty. */
  lemma {:induction false} JoinLast(parts: seq<string>, sep: char)
    requires |parts| >= 2 || (|parts| == 1 && |parts[0]| >= 1)
    ensures |Join(parts, sep)| >= 1
    ensures var j := Join(parts, sep);
            var p := parts[|parts| - 1];
            j[|j| - 1] == if |p| == 0 then sep else p[|p| - 1]
  {
    if |parts| >= 2 {
      var tail := parts[1..];
      if |tail| >= 2 || |tail[0]| >= 1 {
        JoinLast(tail, sep);
      }
    }
  }

  /**
   The relational `a < b` on strings: lexicographic by character, with a
   proper prefix ordered first.
   */
  predicate LexLess(a: string, b: string)
    decreases |a|
  {
    if |a| == 0 then |b| > 0
    else if |b| == 0 then false
    else if a[0] != b[0] then a[0] < b[0]
    else LexLess(a[1..], b[1..])
  }

  /** Strings that agree up to position `n` and differ there are ordered by the characters at `n`. */
  lemma {:induction false} LexLessAt(a: string, b: string, n: nat)
    requires n < |a| && n < |b| && a[..n] == b[..n] && a[n] < b[n]
    ensures LexLess(a, b)
  {
    if n > 0 {
      assert a[0] == a[..n][0] == b[..n][0] == b[0];
      assert a[1..][..n - 1] == a[..n][1..];
      assert b[1..][..n - 1] == b[..n][1..];
      LexLessAt(a[1..], b[1..], n - 1);
    }
  }

  lemma {:induction false} LexLessIrreflexive(a: string)
    ensures !LexLess(a, a)
    decreases |a|
  {
    if |a| > 0 {
      LexLessIrreflexive(a[1..]);
    }
  }

  lemma {:induction false} LexLessTransitive(a: string, b: string, c: string)
    requires LexLess(a, b) && LexLess(b, c)
    ensures LexLess(a, c)
    decreases |a|
  {
    if |a| > 0 && |b| > 0 && |c| > 0 && a[0] == b[0] && b[0] == c[0] {
      LexLessTransitive(a[1..], b[1..], c[1..]);
    }
  }

  /** Each string is below the next one. */
  predicate Ascending(keys: seq<string>) {
    forall i :: 0 < i < |keys| ==> LexLess(keys[i - 1], keys[i])
  }

  /** Neighbour-wise ascending strings are ascending pairwise, and therefore pairwise distinct. */
  lemma {:induction false} AscendingPairwise(keys: seq<string>)
    requires Ascending(keys)
    ensures forall i, j :: 0 <= i < j < |keys| ==> LexLess(keys[i], keys[j]) && keys[i] != keys[j]
    decreases |keys|
  {
    if |keys| > 1 {
      var init := keys[..|keys| - 1];
      assert Ascending(init);
      AscendingPairwise(init);
      var last := |keys| - 1;
      forall i | 0 <= i < last ensures LexLess(keys[i], keys[last]) && keys[i] != keys[last] {
        if i < last - 1 {
          assert LexLess(init[i], init[last - 1]);
          LexLessTransitive(keys[i], keys[last - 1], keys[last]);
        }
        LexLessIrreflexive(keys[i]);
      }
      forall i, j | 0 <= i < j < last ensures LexLess(keys[i], keys[j]) && keys[i] != keys[j] {
        assert init[i] == keys[i] && init[j] == keys[j];
      }
    }
  }
}

=== FILE: shutdowns.dfy ===
/**
 The hand-curated list of shutdown periods that the site displays, and
 the data invariants it keeps. The evaluator of the `/down` endpoint is
 applied to it through `ToRecord`, the same plain object each literal
 entry denotes.
 */
module ShutdownData {
  import opened JsString
  import opened Csv
  import opened Status

  /** One funding lapse, every attribute stored as a string as in the literal. */
  datatype Shutdown = Shutdown(
    shutdownId: string,
    name: string,
    start: string,
    end: string,
    furloughedEstimate: string,
    unpaidWorkingEstimate: string,
    agenciesSummary: string,
    sources: string,
    durationDays: string)

  const Shutdown1990_10 := Shutdown(
    "1990-10",
    "1990 U.S. federal government shutdown",
    "1990-10-06T00:00:00-04:00",
    "1990-10-09T00:00:00-04:00",
    "",
    "",
    "Multiple departments affected; short duration.",
    "https://history.house.gov/Institution/Shutdown/Government-Shutdowns/;https://en.wikipedia.org/wiki/1990_United_States_federal_government_shutdown",
    "3.0")

  const Shutdown1995_11 := Shutdown(
    "1995-11",
    "1995 U.S. federal government shutdown (Nov)",
    "1995-11-13T00:00:00-05:00",
    "1995-11-19T23:59:00-05:00",
    "",
    "",
    "Preceded the longer 1995–96 shutdown.",
    "https://www.congress.gov/crs-product/R41759;https://en.wikipedia.org/wiki/1995%E2%80%931996_United_States_federal_government_shutdowns",
    "7.0")

  const Shutdown1995_12 := Shutdown(
    "1995-12",
    "1995–1996 U.S. federal government shutdown",
    "1995-12-16T00:00:00-05:00",
    "1996-01-06T00:00:00-05:00",
    "",
    "",
    "Clinton–Gingrich budget deadlock; 21 days.",
    "https://www.congress.gov/crs-product/R41759",
    "21.0")

  const Shutdown2013_10 := Shutdown(
    "2013-10",
    "2013 U.S. federal government shutdown",
    "2013-10-01T00:00:00-04:00",
    "2013-10-17T00:00:00-04:00",
    "850000.0",
    "1300000.0",
    "~850k furloughed; ~1.3M excepted (unpaid).",
    "https://www.gao.gov/assets/gao-15-86.pdf;https://en.wikipedia.org/wiki/2013_United_States_federal_government_shutdown",
    "16.0")

  const Shutdown2018_01 := Shutdown(
    "2018-01",
    "January 2018 U.S. federal government shutdown",
    "2018-01-20T00:00:00-05:00",
    "2018-01-22T20:00:00-05:00",
    "",
    "",
    "Brief lapse; limited agency impacts.",
    "https://en.wikipedia.org/wiki/January_2018_United_States_federal_government_shutdown",
    "2.83")

  const Shutdown2018_12 := Shutdown(
    "2018-12",
    "2018–2019 U.S. federal government shutdown",
    "2018-12-22T00:01:00-05:00",
    "2019-01-25T12:00:00-05:00",
    "380000.0",
    "420000.0",
    "Partial shutdown across nine departments and many agencies; 35 days.",
    "https://www.gao.gov/assets/gao-20-377.pdf;https://en.wikipedia.org/wiki/List_of_agencies_affected_by_the_2018%E2%80%932019_United_States_federal_government_shutdown",
    "34.5")

  const Shutdown2025_10 := Shutdown(
    "2025-10",
    "2025 U.S. federal government shutdown (ongoing)",
    "2025-10-01T00:01:00-04:00",
    "",
    "900000.0",
    "700000.0",
    "Ongoing; broad civilian agency impacts; selected exemptions.",
    "https://abcnews.go.com/Politics/us-government-shut-midnight/story?id=126067361;https://en.wikipedia.org/wiki/2025_United_States_federal_government_shutdown",
    "")

  /** The seven entries, oldest first. */
  const Shutdowns: seq<Shutdown> := [
    Shutdown1990_10,
    Shutdown1995_11,
    Shutdown1995_12,
    Shutdown2013_10,
    Shutdown2018_01,
    Shutdown2018_12,
    Shutdown2025_10
  ]

  /** The plain object an entry denotes: one string property per attribute. */
  function ToRecord(s: Shutdown): (r: Record)
    ensures Lookup(r, EndKey) == Str(s.end)
    ensures IsOngoing(r) <==> s.end == ""
  {
    map[
      "shutdown_id" := Str(s.shutdownId),
      "name" := Str(s.name),
      "start_datetime_et" := Str(s.start),
      EndKey := Str(s.end),
      "employees_furloughed_total_est" := Str(s.furloughedEstimate),
      "employees_working_unpaid_total_est" := Str(s.unpaidWorkingEstimate),
      "agencies_summary" := Str(s.agenciesSummary),
      "sources" := Str(s.sources),
      "duration_days" := Str(s.durationDays)
    ]
  }

  /** The list as the evaluator sees it. */
  function Records(list: seq<Shutdown>): (rs: seq<Record>)
    ensures |rs| == |list|
    ensures forall k :: 0 <= k < |list| ==> (IsOngoing(rs[k]) <==> list[k].end == "")
  {
    seq(|list|, k requires 0 <= k < |list| => ToRecord(list[k]))
  }

  /** The property names of an entry, in the order the literal writes them. */
  const FieldNames: seq<string> := [
    "shutdown_id",
    "name",
    "start_datetime_et",
    EndKey,
    "employees_furloughed_total_est",
    "employees_working_unpaid_total_est",
    "agencies_summary",
    "sources",
    "duration_days"
  ]

  /** An entry's values, in the order of `FieldNames`; the fourth is its end. */
  function Cells(s: Shutdown): (row: seq<string>)
    ensures |row| == |FieldNames| && row[3] == s.end
  {
    [s.shutdownId, s.name, s.start, s.end, s.furloughedEstimate,
     s.unpaidWorkingEstimate, s.agenciesSummary, s.sources, s.durationDays]
  }

  /** The entries as table rows, one row per entry, in list order. */
  function Table(list: seq<Shutdown>): (rows: seq<seq<string>>)
    ensures |rows| == |list|
    ensures forall k :: 0 <= k < |list| ==> rows[k] == Cells(list[k])
  {
    seq(|list|, k requires 0 <= k < |list| => Cells(list[k]))
  }

  /** No property name holds ','. */
  lemma FieldNamesNoComma()
    ensures forall i :: 0 <= i < |FieldNames| ==> ',' !in FieldNames[i]
  {
  }

  /** No property name holds '\n'. */
  lemma FieldNamesNoNewline()
    ensures forall i :: 0 <= i < |FieldNames| ==> '\n' !in FieldNames[i]
  {
  }

  /** The property names have nine distinct lengths, so they are distinct. */
  lemma FieldNamesDistinct()
    ensures Distinct(FieldNames)
  {
    var lengths := [11, 4, 17, 15, 30, 34, 16, 7, 13];
    assert forall i :: 0 <= i < 9 ==> |FieldNames[i]| == lengths[i];
  }

  /** The property names are distinct, none holds ',' or '\n', and the end is the fourth. */
  lemma FieldNamesWellFormed()
    ensures |FieldNames| == 9 && FieldNames[3] == EndKey
    ensures Distinct(FieldNames) && PlainRow(FieldNames)
  {
    FieldNamesNoComma();
    FieldNamesNoNewline();
    FieldNamesDistinct();
  }

  /** `ToRecord` gives an entry exactly the properties `FieldNames`, each bound to the matching cell. */
  lemma ToRecordColumns(s: Shutdown)
    ensures forall h :: h in ToRecord(s) <==> h in FieldNames
    ensures forall i :: 0 <= i < |FieldNames| ==> Lookup(ToRecord(s), FieldNames[i]) == Str(Cells(s)[i])
  {
  }

  /**
   A header line under which entries can be written and read back as the
   objects `ToRecord` builds: nine distinct names free of ',' and '\n',
   the fourth being the end, with no whitespace at the start of the first
   or the end of the last, naming the properties of `ToRecord` in the
   order of `Cells`.
   */
  ghost predicate NamesTheCells(names: seq<string>) {
    && |names| == 9 && names[3] == EndKey
    && Distinct(names) && PlainRow(names)
    && names[0] != [] && !IsWhiteSpace(names[0][0])
    && names[8] != [] && !IsWhiteSpace(names[8][|names[8]| - 1])
    && (forall s: Shutdown, h :: h in ToRecord(s) <==> h in names)
    && (forall s: Shutdown, i :: 0 <= i < |names| ==> Lookup(ToRecord(s), names[i]) == Str(Cells(s)[i]))
  }

  /** The property names as the literal writes them form such a header line. */
  lemma FieldNamesNameTheCells()
    ensures NamesTheCells(FieldNames)
  {
    FieldNamesWellFormed();
    forall s: Shutdown ensures forall h :: h in ToRecord(s) <==> h in FieldNames {
      ToRecordColumns(s);
    }
    forall s: Shutdown, i | 0 <= i < |FieldNames|
      ensures Lookup(ToRecord(s), FieldNames[i]) == Str(Cells(s)[i])
    {
      ToRecordColumns(s);
    }
  }

  /** Text does not end in whitespace. */
  predicate EndsClean(c: string) {
    c == [] || !IsWhiteSpace(c[|c| - 1])
  }

  /**
   Entries that the naive parser can read back: no cell holds ',' or '\n',
   and the last cell written does not end in whitespace that `trim` would cut.
   */
  predicate Writable(list: seq<Shutdown>) {
    && (forall k :: 0 <= k < |list| ==> PlainRow(Cells(list[k])))
    && (|list| == 0 || EndsClean(list[|list| - 1].durationDays))
  }

  /** The written-out text starts with the first character of the first name. */
  lemma TableTextStart(names: seq<string>, list: seq<Shutdown>)
    requires NamesTheCells(names)
    ensures |Encode(names, Table(list))| >= 1
    ensures Encode(names, Table(list))[0] == names[0][0]
  {
    JoinFirst(names, ',');
    JoinFirst(EncodedLines(names, Table(list)), '\n');
  }

  /** The written-out text ends with the last name, or else with the last row's last cell or a ','. */
  lemma TableTextEnd(names: seq<string>, list: seq<Shutdown>)
    requires NamesTheCells(names) && Writable(list)
    ensures |Encode(names, Table(list))| >= 1
    ensures EndsClean(Encode(names, Table(list)))
  {
    var lines := EncodedLines(names, Table(list));
    if |list| > 0 {
      var last := Table(list)[|list| - 1];
      JoinLast(last, ',');
      assert lines[|lines| - 1] == Join(last, ',');
    } else {
      JoinLast(names, ',');
    }
    JoinLast(lines, '\n');
  }

  /** `trim` leaves the written-out text alone. */
  lemma TableTextTrimmed(names: seq<string>, list: seq<Shutdown>)
    requires NamesTheCells(names) && Writable(list)
    ensures Trimmed(Encode(names, Table(list)))
  {
    TableTextStart(names, list);
    TableTextEnd(names, list);
  }

  /** Every row of the table has one cell per name, and no cell holds ',' or '\n'. */
  lemma TableShape(names: seq<string>, list: seq<Shutdown>)
    requires NamesTheCells(names) && Writable(list)
    ensures forall k :: 0 <= k < |Table(list)| ==> |Table(list)[k]| == |names|
    ensures PlainTable(Table(list))
  {
  }

  /** Record `k` of the parsed text is the object of entry `k`. */
  lemma ParsedEntry(names: seq<string>, list: seq<Shutdown>, k: nat)
    requires NamesTheCells(names) && Writable(list) && k < |list|
    ensures k < |ParseCsv(Encode(names, Table(list)))|
    ensures ParseCsv(Encode(names, Table(list)))[k] == ToRecord(list[k])
  {
    var text := Encode(names, Table(list));
    TableTextTrimmed(names, list);
    TableShape(names, list);
    EncodedHeaderNames(names, Table(list));
    forall i | 0 <= i < |names|
      ensures Lookup(ParseCsv(text)[k], names[i]) == Lookup(ToRecord(list[k]), names[i])
    {
      ParseEncodeAt(names, Table(list), k, i);
    }
    forall h ensures h in ParseCsv(text)[k] <==> h in names {
      RecordKeys(text, k, h);
    }
    SameRecord(ParseCsv(text)[k], ToRecord(list[k]), names);
  }

  /**
   Written out under such a header line and parsed back, the entries become
   exactly the objects the literal denotes: the CSV path and the object
   path agree.
   */
  lemma ParseTable(names: seq<string>, list: seq<Shutdown>)
    requires NamesTheCells(names) && Writable(list)
    ensures ParseCsv(Encode(names, Table(list))) == Records(list)
  {
    var parsed := ParseCsv(Encode(names, Table(list)));
    TableTextTrimmed(names, list);
    TableShape(names, list);
    EncodedHeaderNames(names, Table(list));
    assert |parsed| == |list|;
    forall k | 0 <= k < |list| ensures parsed[k] == Records(list)[k] {
      ParsedEntry(names, list, k);
    }
  }

  /** The entries written out as comma-separated text, under a header line of the property names. */
  function TableText(list: seq<Shutdown>): string {
    Encode(FieldNames, Table(list))
  }

  /** The endpoint answers 503 for a written-out list exactly when some entry has no end. */
  lemma TableAnswer(list: seq<Shutdown>)
    requires Writable(list)
    ensures Get(TableText(list)).status == 503 <==> exists k :: 0 <= k < |list| && list[k].end == ""
    ensures Get(TableText(list)).status == 200 <==> forall k :: 0 <= k < |list| ==> list[k].end != ""
  {
    FieldNamesNameTheCells();
    ParseTable(FieldNames, list);
  }

  /** The id column. */
  function Ids(list: seq<Shutdown>): seq<string> {
    seq(|list|, k requires 0 <= k < |list| => list[k].shutdownId)
  }

  /** The start column. */
  function Starts(list: seq<Shutdown>): seq<string> {
    seq(|list|, k requires 0 <= k < |list| => list[k].start)
  }

  /** The end column; `""` where no end is recorded. */
  function Ends(list: seq<Shutdown>): seq<string> {
    seq(|list|, k requires 0 <= k < |list| => list[k].end)
  }

  /*
   String comparisons, one per lemma: each names the first position at
   which the two strings differ. The seven-way facts are then assembled
   from these over plain string parameters.
   */

  lemma IdBefore0()
    ensures LexLess("1990-10", "1995-11")
  {
    LexLessAt("1990-10", "1995-11", 3);
  }

  lemma IdBefore1()
    ensures LexLess("1995-11", "1995-12")
  {
    LexLessAt("1995-11", "1995-12", 6);
  }

  lemma IdBefore2()
    ensures LexLess("1995-12", "2013-10")
  {
    LexLessAt("1995-12", "2013-10", 0);
  }

  lemma IdBefore3()
    ensures LexLess("2013-10", "2018-01")
  {
    LexLessAt("2013-10", "2018-01", 3);
  }

  lemma IdBefore4()
    ensures LexLess("2018-01", "2018-12")
  {
    LexLessAt("2018-01", "2018-12", 5);
  }

  lemma IdBefore5()
    ensures LexLess("2018-12", "2025-10")
  {
    LexLessAt("2018-12", "2025-10", 2);
  }

  lemma StartBefore0()
    ensures LexLess("1990-10-06T00:00:00-04:00", "1995-11-13T00:00:00-05:00")
  {
    LexLessAt("1990-10-06T00:00:00-04:00", "1995-11-13T00:00:00-05:00", 3);
  }

  lemma EndAfter0()
    ensures LexLess("1990-10-06T00:00:00-04:00", "1990-10-09T00:00:00-04:00")
  {
    LexLessAt("1990-10-06T00:00:00-04:00", "1990-10-09T00:00:00-04:00", 9);
  }

  lemma StartBefore1()
    ensures LexLess("1995-11-13T00:00:00-05:00", "1995-12-16T00:00:00-05:00")
  {
    LexLessAt("1995-11-13T00:00:00-05:00", "1995-12-16T00:00:00-05:00", 6);
  }

  lemma EndAfter1()
    ensures LexLess("1995-11-13T00:00:00-05:00", "1995-11-19T23:59:00-05:00")
  {
    LexLessAt("1995-11-13T00:00:00-05:00", "1995-11-19T23:59:00-05:00", 9);
  }

  lemma StartBefore2()
    ensures LexLess("1995-12-16T00:00:00-05:00", "2013-10-01T00:00:00-04:00")
  {
    LexLessAt("1995-12-16T00:00:00-05:00", "2013-10-01T00:00:00-04:00", 0);
  }

  lemma EndAfter2()
    ensures LexLess("1995-12-16T00:00:00-05:00", "1996-01-06T00:00:00-05:00")
  {
    LexLessAt("1995-12-16T00:00:00-05:00", "1996-01-06T00:00:00-05:00", 3);
  }

  lemma StartBefore3()
    ensures LexLess("2013-10-01T00:00:00-04:00", "2018-01-20T00:00:00-05:00")
  {
    LexLessAt("2013-10-01T00:00:00-04:00", "2018-01-20T00:00:00-05:00", 3);
  }

  lemma EndAfter3()
    ensures LexLess("2013-10-01T00:00:00-04:00", "2013-10-17T00:00:00-04:00")
  {
    LexLessAt("2013-10-01T00:00:00-04:00", "2013-10-17T00:00:00-04:00", 8);
  }

  lemma StartBefore4()
    ensures LexLess("2018-01-20T00:00:00-05:00", "2018-12-22T00:01:00-05:00")
  {
    LexLessAt("2018-01-20T00:00:00-05:00", "2018-12-22T00:01:00-05:00", 5);
  }

  lemma EndAfter4()
    ensures LexLess("2018-01-20T00:00:00-05:00", "2018-01-22T20:00:00-05:00")
  {
    LexLessAt("2018-01-20T00:00:00-05:00", "2018-01-22T20:00:00-05:00", 9);
  }

  lemma StartBefore5()
    ensures LexLess("2018-12-22T00:01:00-05:00", "2025-10-01T00:01:00-04:00")
  {
    LexLessAt("2018-12-22T00:01:00-05:00", "2025-10-01T00:01:00-04:00", 2);
  }

  lemma EndAfter5()
    ensures LexLess("2018-12-22T00:01:00-05:00", "2019-01-25T12:00:00-05:00")
  {
    LexLessAt("2018-12-22T00:01:00-05:00", "2019-01-25T12:00:00-05:00", 3);
  }

  /** The three key columns of the list, written out. */
  lemma Columns()
    ensures Ids(Shutdowns) == [
      "1990-10",
      "1995-11",
      "1995-12",
      "2013-10",
      "2018-01",
      "2018-12",
      "2025-10"]
    ensures Starts(Shutdowns) == [
      "1990-10-06T00:00:00-04:00",
      "1995-11-13T00:00:00-05:00",
      "1995-12-16T00:00:00-05:00",
      "2013-10-01T00:00:00-04:00",
      "2018-01-20T00:00:00-05:00",
      "2018-12-22T00:01:00-05:00",
      "2025-10-01T00:01:00-04:00"]
    ensures Ends(Shutdowns) == [
      "1990-10-09T00:00:00-04:00",
      "1995-11-19T23:59:00-05:00",
      "1996-01-06T00:00:00-05:00",
      "2013-10-17T00:00:00-04:00",
      "2018-01-22T20:00:00-05:00",
      "2019-01-25T12:00:00-05:00",
      ""]
  {
  }

  /** Seven strings, each below the next, are ascending. */
  lemma Asc7(a0: string, a1: string, a2: string, a3: string, a4: string, a5: string, a6: string)
    requires LexLess(a0, a1) && LexLess(a1, a2) && LexLess(a2, a3) && LexLess(a3, a4) && LexLess(a4, a5) && LexLess(a5, a6)
    ensures Ascending([a0, a1, a2, a3, a4, a5, a6])
  {
  }

  /** Wherever an end is recorded, it sorts after the start at the same position. */
  predicate EndsFollowStarts(starts: seq<string>, ends: seq<string>) {
    forall k :: 0 <= k < |starts| && k < |ends| && ends[k] != "" ==> LexLess(starts[k], ends[k])
  }

  /** Six ended spans and a seventh still open. */
  lemma Follow7(s0: string, s1: string, s2: string, s3: string, s4: string, s5: string, s6: string,
                 e0: string, e1: string, e2: string, e3: string, e4: string, e5: string)
    requires LexLess(s0, e0) && LexLess(s1, e1) && LexLess(s2, e2)
    requires LexLess(s3, e3) && LexLess(s4, e4) && LexLess(s5, e5)
    ensures EndsFollowStarts([s0, s1, s2, s3, s4, s5, s6], [e0, e1, e2, e3, e4, e5, ""])
  {
  }

  /** The written-out id column is ascending. */
  lemma LiteralIdsAscending()
    ensures Ascending([
      "1990-10",
      "1995-11",
      "1995-12",
      "2013-10",
      "2018-01",
      "2018-12",
      "2025-10"])
  {
    IdBefore0(); IdBefore1(); IdBefore2(); IdBefore3(); IdBefore4(); IdBefore5();
    Asc7("1990-10", "1995-11", "1995-12", "2013-10", "2018-01", "2018-12", "2025-10");
  }

  /** The written-out start column is ascending. */
  lemma LiteralStartsAscending()
    ensures Ascending([
      "1990-10-06T00:00:00-04:00",
      "1995-11-13T00:00:00-05:00",
      "1995-12-16T00:00:00-05:00",
      "2013-10-01T00:00:00-04:00",
      "2018-01-20T00:00:00-05:00",
      "2018-12-22T00:01:00-05:00",
      "2025-10-01T00:01:00-04:00"])
  {
    StartBefore0(); StartBefore1(); StartBefore2(); StartBefore3(); StartBefore4(); StartBefore5();
    Asc7("1990-10-06T00:00:00-04:00", "1995-11-13T00:00:00-05:00", "1995-12-16T00:00:00-05:00", "2013-10-01T00:00:00-04:00", "2018-01-20T00:00:00-05:00", "2018-12-22T00:01:00-05:00", "2025-10-01T00:01:00-04:00");
  }

  /** In the written-out columns every recorded end follows its start. */
  lemma LiteralEndsFollowStarts()
    ensures EndsFollowStarts([
      "1990-10-06T00:00:00-04:00",
      "1995-11-13T00:00:00-05:00",
      "1995-12-16T00:00:00-05:00",
      "2013-10-01T00:00:00-04:00",
      "2018-01-20T00:00:00-05:00",
      "2018-12-22T00:01:00-05:00",
      "2025-10-01T00:01:00-04:00"], [
      "1990-10-09T00:00:00-04:00",
      "1995-11-19T23:59:00-05:00",
      "1996-01-06T00:00:00-05:00",
      "2013-10-17T00:00:00-04:00",
      "2018-01-22T20:00:00-05:00",
      "2019-01-25T12:00:00-05:00",
      ""])
  {
    EndAfter0(); EndAfter1(); EndAfter2(); EndAfter3(); EndAfter4(); EndAfter5();
    Follow7(
      "1990-10-06T00:00:00-04:00",
      "1995-11-13T00:00:00-05:00",
      "1995-12-16T00:00:00-05:00",
      "2013-10-01T00:00:00-04:00",
      "2018-01-20T00:00:00-05:00",
      "2018-12-22T00:01:00-05:00",
      "2025-10-01T00:01:00-04:00",
      "1990-10-09T00:00:00-04:00",
      "1995-11-19T23:59:00-05:00",
      "1996-01-06T00:00:00-05:00",
      "2013-10-17T00:00:00-04:00",
      "2018-01-22T20:00:00-05:00",
      "2019-01-25T12:00:00-05:00");
  }

  /** The key columns of the list are ordered. */
  lemma ColumnsOrdered()
    ensures Ascending(Ids(Shutdowns))
    ensures Ascending(Starts(Shutdowns))
    ensures EndsFollowStarts(Starts(Shutdowns), Ends(Shutdowns))
  {
    Columns();
    LiteralIdsAscending();
    LiteralStartsAscending();
    LiteralEndsFollowStarts();
  }

  /** For any list: ascending id and start columns order the entries pairwise, so no id repeats. */
  lemma ColumnsPairwise(list: seq<Shutdown>)
    requires Ascending(Ids(list)) && Ascending(Starts(list))
    ensures forall i, j :: 0 <= i < j < |list| ==> LexLess(list[i].shutdownId, list[j].shutdownId)
    ensures forall i, j :: 0 <= i < j < |list| ==> list[i].shutdownId != list[j].shutdownId
    ensures forall i, j :: 0 <= i < j < |list| ==> LexLess(list[i].start, list[j].start)
  {
    AscendingPairwise(Ids(list));
    AscendingPairwise(Starts(list));
    forall i, j | 0 <= i < j < |list|
      ensures LexLess(list[i].shutdownId, list[j].shutdownId) && list[i].shutdownId != list[j].shutdownId
      ensures LexLess(list[i].start, list[j].start)
    {
      assert Ids(list)[i] == list[i].shutdownId && Ids(list)[j] == list[j].shutdownId;
      assert Starts(list)[i] == list[i].start && Starts(list)[j] == list[j].start;
    }
  }

  /** For any list: where an end is recorded, it sorts after the entry's start. */
  lemma SpansFromColumns(list: seq<Shutdown>)
    requires EndsFollowStarts(Starts(list), Ends(list))
    ensures forall k :: 0 <= k < |list| && list[k].end != "" ==> LexLess(list[k].start, list[k].end)
  {
    forall k | 0 <= k < |list| && list[k].end != "" ensures LexLess(list[k].start, list[k].end) {
      assert Starts(list)[k] == list[k].start && Ends(list)[k] == list[k].end;
    }
  }

  /**
   Seven entries, ascending by id and by start (compared as strings, as
   the timestamps are written), hence with pairwise distinct ids.
   */
  lemma FixtureOrder()
    ensures |Shutdowns| == 7
    ensures forall i, j :: 0 <= i < j < |Shutdowns| ==> LexLess(Shutdowns[i].shutdownId, Shutdowns[j].shutdownId)
    ensures forall i, j :: 0 <= i < j < |Shutdowns| ==> Shutdowns[i].shutdownId != Shutdowns[j].shutdownId
    ensures forall i, j :: 0 <= i < j < |Shutdowns| ==> LexLess(Shutdowns[i].start, Shutdowns[j].start)
  {
    ColumnsOrdered();
    ColumnsPairwise(Shutdowns);
  }

  /** Every entry has a start; a recorded end sorts after its start. */
  lemma FixtureSpans()
    ensures forall k :: 0 <= k < |Shutdowns| ==> Shutdowns[k].start != ""
    ensures forall k :: 0 <= k < |Shutdowns| && Shutdowns[k].end != "" ==>
              LexLess(Shutdowns[k].start, Shutdowns[k].end)
  {
    ColumnsOrdered();
    SpansFromColumns(Shutdowns);
  }

  /** Exactly one entry, `2025-10`, the last, has an empty end; the duration is blank exactly there. */
  lemma FixtureOneOngoing()
    ensures forall k :: 0 <= k < |Shutdowns| ==> (Shutdowns[k].end == "" <==> k == 6)
    ensures Shutdowns[6].shutdownId == "2025-10"
    ensures forall k :: 0 <= k < |Shutdowns| ==> (Shutdowns[k].durationDays == "" <==> Shutdowns[k].end == "")
  {
  }

  /** Unknown workforce estimates are stored as the empty string, never as "0". */
  lemma FixtureUnknownEstimates()
    ensures forall k :: 0 <= k < |Shutdowns| ==>
              Shutdowns[k].furloughedEstimate != "0" && Shutdowns[k].unpaidWorkingEstimate != "0"
    ensures forall k :: k in {0, 1, 2, 4} ==>
              Shutdowns[k].furloughedEstimate == "" && Shutdowns[k].unpaidWorkingEstimate == ""
  {
  }

  /** The evaluator finds the list ongoing, so the endpoint answers 503. */
  lemma FixtureIsDown()
    ensures HasOngoingShutdown(Records(Shutdowns))
    ensures Respond(HasOngoingShutdown(Records(Shutdowns))).status == 503
  {
    OneOpenSuffices(Records(Shutdowns), 6);
  }

  /** Once `2025-10` is given an end, nothing is ongoing and the endpoint answers 200. */
  lemma AmendedFixtureIsUp(end: string)
    requires end != ""
    ensures !HasOngoingShutdown(Records(Shutdowns[6 := Shutdowns[6].(end := end)]))
    ensures Respond(HasOngoingShutdown(Records(Shutdowns[6 := Shutdowns[6].(end := end)]))).status == 200
  {
    var amended := Shutdowns[6 := Shutdowns[6].(end := end)];
    assert forall k :: 0 <= k < |amended| ==> amended[k].end != "";
  }
}

=== FILE: status.dfy ===
/**
 The status evaluator of the `/down` endpoint: a shutdown is ongoing when
 some record has no recorded end (`hasOngoingShutdown`), and the handler
 (`GET`) answers 503 in that case and 200 otherwise, with no body and
 headers that forbid every cache from storing the answer.
 */
module Status {
  import opened JsString
  import opened Csv

  /** The property whose falsy value marks a shutdown as still running. */
  const EndKey := "end_datetime_et"

  /** `!s.end_datetime_et`: the record has no end, or an empty one. */
  function IsOngoing(s: Record): (b: bool)
    ensures b <==> EndKey !in s || s[EndKey] == Undefined || s[EndKey] == Str("")
  {
    Falsy(Lookup(s, EndKey))
  }

  /** `shutdowns.some(s => !s.end_datetime_et)`, scanning from the front. */
  function HasOngoingShutdown(shutdowns: seq<Record>): (b: bool)
    ensures b <==> exists k :: 0 <= k < |shutdowns| && IsOngoing(shutdowns[k])
  {
    if |shutdowns| == 0 then false
    else if IsOngoing(shutdowns[0]) then true
    else
      assert forall k :: 1 <= k < |shutdowns| ==> shutdowns[k] == shutdowns[1..][k - 1];
      HasOngoingShutdown(shutdowns[1..])
  }

  /** No records, no ongoing shutdown. */
  lemma NoneOngoingInEmpty()
    ensures !HasOngoingShutdown([])
  {
  }

  /** When every record carries a non-empty end, nothing is ongoing. */
  lemma AllEndedMeansNotOngoing(shutdowns: seq<Record>)
    requires forall k :: 0 <= k < |shutdowns| ==>
               EndKey in shutdowns[k] && shutdowns[k][EndKey].Str? && shutdowns[k][EndKey].text != ""
    ensures !HasOngoingShutdown(shutdowns)
  {
  }

  /** One record without an end, or with an empty one, is enough, however many others have one. */
  lemma OneOpenSuffices(shutdowns: seq<Record>, k: nat)
    requires k < |shutdowns| && Falsy(Lookup(shutdowns[k], EndKey))
    ensures HasOngoingShutdown(shutdowns)
  {
  }

  /** The scan over a concatenation is the disjunction of the scans over the parts. */
  lemma {:induction false} HasOngoingAppend(a: seq<Record>, b: seq<Record>)
    ensures HasOngoingShutdown(a + b) == (HasOngoingShutdown(a) || HasOngoingShutdown(b))
  {
    if HasOngoingShutdown(a) {
      var k :| 0 <= k < |a| && IsOngoing(a[k]);
      assert (a + b)[k] == a[k];
    }
    if HasOngoingShutdown(b) {
      var k :| 0 <= k < |b| && IsOngoing(b[k]);
      assert (a + b)[|a| + k] == b[k];
    }
    if HasOngoingShutdown(a + b) {
      var k :| 0 <= k < |a + b| && IsOngoing((a + b)[k]);
      if k < |a| {
        assert a[k] == (a + b)[k];
      } else {
        assert b[k - |a|] == (a + b)[k];
      }
    }
  }

  /** Appending records can turn "not ongoing" into "ongoing", never the reverse. */
  lemma AppendMonotone(a: seq<Record>, b: seq<Record>)
    requires HasOngoingShutdown(a)
    ensures HasOngoingShutdown(a + b)
  {
    HasOngoingAppend(a, b);
  }

  /** The answer does not depend on the order of the records. */
  lemma {:induction false} OrderIrrelevant(a: seq<Record>, b: seq<Record>)
    requires multiset(a) == multiset(b)
    ensures HasOngoingShutdown(a) == HasOngoingShutdown(b)
  {
    if HasOngoingShutdown(a) {
      var k :| 0 <= k < |a| && IsOngoing(a[k]);
      assert a[k] in multiset(b);
      var j :| 0 <= j < |b| && b[j] == a[k];
    }
    if HasOngoingShutdown(b) {
      var k :| 0 <= k < |b| && IsOngoing(b[k]);
      assert b[k] in multiset(a);
      var j :| 0 <= j < |a| && a[j] == b[k];
    }
  }

  /**
   A row that stops before its end column leaves the end `undefined`, which
   counts as ongoing.
   */
  lemma TruncatedRowIsOngoing(headers: seq<string>, line: string, i: nat)
    requires i < |headers| && headers[i] == EndKey
    requires multiset(line)[','] < i
    ensures IsOngoing(ParseRow(headers, line))
  {
    ShortRowUndefined(headers, line, i);
  }

  /**
   An end column written as a quoted empty field keeps both quote characters;
   that two-character string is truthy, so the record counts as ended.
   */
  lemma QuotedEmptyEndIsNotOngoing(headers: seq<string>, fields: seq<string>, i: nat)
    requires i < |headers| && headers[i] == EndKey && NotReassigned(headers, i, |headers|)
    requires NoCommas(fields)
    requires i < |fields| && fields[i] == "\"\""
    ensures !IsOngoing(ParseRow(headers, Join(fields, ',')))
  {
    ParseRowVerbatim(headers, fields, i);
  }

  /** The end column's name survives both `split`s. */
  lemma EndKeyPlain()
    ensures Plain(EndKey)
  {
  }

  /** A two-column table with one data row parses to one record holding that row's end field. */
  lemma SingleRowParse(idKey: string, id: string, end: string)
    requires Plain(idKey) && idKey != EndKey
    requires idKey != [] && !IsWhiteSpace(idKey[0])
    requires Plain(id) && Plain(end)
    requires end == [] || !IsWhiteSpace(end[|end| - 1])
    ensures |ParseCsv(Encode([idKey, EndKey], [[id, end]]))| == 1
    ensures Lookup(ParseCsv(Encode([idKey, EndKey], [[id, end]]))[0], EndKey) == Str(end)
  {
    var headers := [idKey, EndKey];
    var rows := [[id, end]];
    var lines := EncodedLines(headers, rows);
    JoinFirst(headers, ',');
    JoinFirst(lines, '\n');
    JoinLast(rows[0], ',');
    JoinLast(lines, '\n');
    EndKeyPlain();
    ParseEncode(headers, rows);
  }

  /** A single record whose end is `end` is answered 503 exactly when `end` is empty. */
  lemma SingleAnswer(records: seq<Record>, end: string)
    requires |records| == 1 && Lookup(records[0], EndKey) == Str(end)
    ensures Respond(HasOngoingShutdown(records)).status == (if end == [] then 503 else 200)
  {
    assert HasOngoingShutdown(records) == IsOngoing(records[0]);
  }

  /** Data that parses to a single record answers 503 exactly when that record's end is empty. */
  lemma SingleRecordAnswer(csv: string, end: string)
    requires |ParseCsv(csv)| == 1 && Lookup(ParseCsv(csv)[0], EndKey) == Str(end)
    ensures Get(csv).status == (if end == [] then 503 else 200)
  {
    SingleAnswer(ParseCsv(csv), end);
  }

  /**
   A table with some first column and the end column, and one data row,
   answers 503 exactly when the end field is empty; any other end text,
   including a quoted empty field, answers 200.
   */
  lemma SingleRowAnswer(idKey: string, id: string, end: string)
    requires Plain(idKey) && idKey != EndKey
    requires idKey != [] && !IsWhiteSpace(idKey[0])
    requires Plain(id) && Plain(end)
    requires end == [] || !IsWhiteSpace(end[|end| - 1])
    ensures Get(Encode([idKey, EndKey], [[id, end]])).status == (if end == [] then 503 else 200)
  {
    SingleRowParse(idKey, id, end);
    SingleRecordAnswer(Encode([idKey, EndKey], [[id, end]]), end);
  }

  /** A data line `"1990-10",""`: the quotes are kept, so the end is recorded and the answer is 200. */
  lemma QuotedEmptyEndExample()
    ensures Get(Encode(["shutdown_id", EndKey], [["\"1990-10\"", "\"\""]])).status == 200
  {
    SingleRowAnswer("shutdown_id", "\"1990-10\"", "\"\"");
  }

  /** The response body: the endpoint only ever sends `null`. */
  datatype Body = Null | Text(content: string)

  /** The parts of the `Response` the endpoint sets. */
  datatype Response = Response(status: int, body: Body, headers: map<string, string>)

  const CacheControl := "no-store, no-cache, must-revalidate, proxy-revalidate"

  /** The fixed headers of every answer. */
  const NoCacheHeaders: map<string, string> := map[
    "Content-Type" := "text/plain",
    "Cache-Control" := CacheControl,
    "Pragma" := "no-cache",
    "Expires" := "0",
    "Surrogate-Control" := "no-store",
    "CDN-Cache-Control" := "no-store"
  ]

  /** Every cache layer is told not to store the answer: browser, proxy and CDN. */
  predicate Uncacheable(headers: map<string, string>) {
    && "Cache-Control" in headers && headers["Cache-Control"] == CacheControl
    && "Pragma" in headers && headers["Pragma"] == "no-cache"
    && "Expires" in headers && headers["Expires"] == "0"
    && "Surrogate-Control" in headers && headers["Surrogate-Control"] == "no-store"
    && "CDN-Cache-Control" in headers && headers["CDN-Cache-Control"] == "no-store"
  }

  /**
   The answer is declared plain text and carries exactly six headers: the
   content type and the five cache directives.
   */
  predicate PlainTextOnly(headers: map<string, string>) {
    && headers.Keys == {"Content-Type", "Cache-Control", "Pragma", "Expires", "Surrogate-Control", "CDN-Cache-Control"}
    && headers["Content-Type"] == "text/plain"
  }

  /** The answer for a given shutdown state. */
  function Respond(isDown: bool): (r: Response)
    ensures r.status == 503 <==> isDown
    ensures r.status == 200 <==> !isDown
    ensures r.body == Null
    ensures Uncacheable(r.headers)
    ensures PlainTextOnly(r.headers)
  {
    Response(if isDown then 503 else 200, Null, NoCacheHeaders)
  }

  /** `GET()`: parse the data text, evaluate it, answer. */
  function Get(csv: string): (r: Response)
    ensures r.status == 503 <==> exists k :: 0 <= k < |ParseCsv(csv)| && IsOngoing(ParseCsv(csv)[k])
    ensures r.status == 200 <==> forall k :: 0 <= k < |ParseCsv(csv)| ==> !IsOngoing(ParseCsv(csv)[k])
    ensures r.body == Null
    ensures Uncacheable(r.headers)
    ensures PlainTextOnly(r.headers)
  {
    Respond(HasOngoingShutdown(ParseCsv(csv)))
  }
}
